=== FILE: README.md ===
# Lamp controller: connection state machine

A Dafny model of the connection logic of the lamp app's `MainActivity`. The app
keeps a Bluetooth serial link to one fixed peripheral (`20:16:03:08:32:85`).
It sends `T` to toggle the lamp and `S` to ask for its state. It reads a reply
whose first byte is `y` (on) or `n` (off) and puts the matching text on the
toggle button.

The activity is modelled as an immutable `Machine`:

- the `ConnectionStatus` (Disconnected, Connecting, Connected);
- whether the adapter field is set;
- the socket field;
- the toggle button's text;
- the handler's queue of pending work (connect retry, status poll, the
  settled `send("S")`, posted button-text changes).

Every method of the activity is a pure function to an `Outcome`. An `Ok`
outcome carries the next machine and the socket effects (open, write, close).
A `Crash` outcome is an unchecked exception escaping the activity: a null
`socket` in `disconnect()`, or an empty read in `receive()`. The platform facts
an event reads are an `Env` input: Bluetooth feature, default adapter (enabled
flag, bonded addresses), and whether the enable request, the device lookup,
opening the socket or writing to it throws.
External events are button clicks, the handler running one of its entries, the
four socket callbacks, and `onDestroy`.

Modules: `LampTypes` (types.dfy), `Codec` (codec.dfy: UTF-8 encoding of
commands, first-byte replies), `Bonding` (bonding.dfy), `Link` (link.dfy: the
events), `Invariants` (invariants.dfy), `Properties` (properties.dfy).

Proved invariant. Consider every run that does not fault. In it, no socket is
held while Disconnected. Exactly one status poll is pending. Pending retries
plus held sockets number at most one. The first part holds even in the state a
fault leaves behind.

### Behaviour of the code as written

- `connect()` sets Connecting before any check. Its adapter-off, not-bonded and
  not-supported exits leave the machine Connecting. The retry
  posted by the adapter-off exit therefore does nothing when it runs. Without a
  socket to call back, the machine then stays Connecting
  (`DisabledRetryIsNoOp`, `StuckConnecting`).
- A Connecting state does not imply that a socket exists. Only "Disconnected
  implies no socket" holds.
- The status poll reschedules itself in every state. It is started once, at
  creation, and not on each connect.
- The lookup at line 83 runs when the feature is present *or* the adapter field
  is unset. With no adapter, the first `connect()` therefore faults: it
  dereferences the null adapter, the catch calls the error callback, and that
  dereferences the null socket (`FirstConnectWithoutAdapterFaults`).
- `disconnect()` and the error callbacks fault when no socket is held. A second
  link error before reconnecting faults; no second retry is posted.
  Destroying an activity stuck in Connecting faults the same way
  (`StuckActivityFaultsOnDestroy`). So does any throw in `connect()` before the
  socket is created.
- An empty read faults on its first byte.
- A click posts the flipped button text even when nothing could be sent.

## Model

| member | source | states |
|---|---|---|
| Link.Connect | app/src/main/java/ir/doorbash/lamp/MainActivity.java:76-113 | a no-op unless Disconnected; never yields Connected; opens a socket only from Disconnected with the adapter on, no platform call throwing before the socket exists, and the target bonded; writes nothing |
| Properties.ConnectEarlyExits | app/src/main/java/ir/doorbash/lamp/MainActivity.java:82-96 | adapter off, with the enable request not throwing: Connecting, exactly one retry after 5000 ms, nothing opened; not bonded, with no lookup throw: Connecting, nothing scheduled or opened; not supported: Connecting only |
| Properties.ConnectAttempts | app/src/main/java/ir/doorbash/lamp/MainActivity.java:84-108 | a clean open holds a socket to the target while Connecting; a throwing open ends Disconnected with one retry after open and close; a null adapter, a throwing enable request (its retry already queued), or a platform call throwing before the socket is created, faults on the null socket |
| Properties.FirstConnectWithoutAdapterFaults | app/src/main/java/ir/doorbash/lamp/MainActivity.java:83-112 | with no default adapter, creating the activity faults with the null socket, Disconnected, whatever the feature flag says |
| Properties.DisabledRetryIsNoOp | app/src/main/java/ir/doorbash/lamp/MainActivity.java:82-91 | the retry posted by the adapter-off exit, when the enable request does not throw, run in any later environment, only removes itself from the queue |
| Properties.StuckConnecting | app/src/main/java/ir/doorbash/lamp/MainActivity.java:76-81 | from Connecting, any run of clicks, reads and handler entries keeps Connecting and the same socket, and opens or writes nothing |
| Link.Disconnect | app/src/main/java/ir/doorbash/lamp/MainActivity.java:115-123 | ends Disconnected with no socket; closes a held socket; faults exactly when there is none; queue and button text untouched |
| Link.OnLinkError | app/src/main/java/ir/doorbash/lamp/MainActivity.java:179-197 | Disconnected, no socket; when a socket was held it is closed and exactly one connect retry after 5000 ms is appended; faults, posting nothing and closing nothing, when no socket is held; adapter field and button text kept |
| Properties.SecondLinkErrorFaults | app/src/main/java/ir/doorbash/lamp/MainActivity.java:179-197 | a second link error after the first one faults instead of posting a second retry |
| Bonding.BondedAmong | app/src/main/java/ir/doorbash/lamp/MainActivity.java:128-136 | the scan over bonded addresses finds one iff the target address is among them |
| Bonding.DeviceIsBond | app/src/main/java/ir/doorbash/lamp/MainActivity.java:125-139 | true iff an adapter exists and some bonded address equals the target address |
| Link.Send | app/src/main/java/ir/doorbash/lamp/MainActivity.java:141-153 | unchanged unless Connected; writes iff Connected with a socket and the write does not throw, and then exactly the encoded text; otherwise from Connected the socket is closed and cleared, the state is Disconnected, one retry is queued, and it faults iff no socket was held |
| Codec.EncodeChar | app/src/main/java/ir/doorbash/lamp/MainActivity.java:148 | the shortest UTF-8 form: one to four bytes, the count fixed by the code point's range, decoding back to the character itself; an ASCII character is its own single byte; lead bytes fall in the UTF-8 ranges for their length and continuation bytes in 0x80..0xBF |
| Codec.Encode | app/src/main/java/ir/doorbash/lamp/MainActivity.java:148 | the byte string is between one and four times the text's length |
| Codec.EncodeAscii | app/src/main/java/ir/doorbash/lamp/MainActivity.java:148 | ASCII text encodes to one byte per character, equal to its code |
| Codec.EncodeAppend | app/src/main/java/ir/doorbash/lamp/MainActivity.java:148 | the encoding of a concatenation is the concatenation of the encodings |
| Link.Receive | app/src/main/java/ir/doorbash/lamp/MainActivity.java:155-166 | never changes status, socket or button text, and has no socket effect; faults iff the read is empty; 'n' posts "Turn On", 'y' posts "Turn Off", other bytes post nothing |
| Codec.ReplyOf | app/src/main/java/ir/doorbash/lamp/MainActivity.java:157-161 | the reply is On iff the byte is 'y' and Off iff it is 'n' |
| Codec.LabelFor | app/src/main/java/ir/doorbash/lamp/MainActivity.java:157-161 | reply Off gives "Turn On", reply On gives "Turn Off", and an unrecognised reply gives no text |
| Properties.ReplyReachesButton | app/src/main/java/ir/doorbash/lamp/MainActivity.java:155-166 | after a recognised reply the posted change, once run, shows the matching text and leaves the queue as before the read |
| Link.Flipped | app/src/main/java/ir/doorbash/lamp/MainActivity.java:55-59 | "Turn On" is chosen iff the current text is "Turn Off"; otherwise "Turn Off" |
| Link.Click | app/src/main/java/ir/doorbash/lamp/MainActivity.java:53-61 | always posts the flipped text last; while not Connected changes nothing else; with a working socket writes exactly the encoded "T"; a throwing write closes the socket, ends Disconnected and posts the retry before the text; a null socket faults |
| Properties.ClickFlipsButton | app/src/main/java/ir/doorbash/lamp/MainActivity.java:53-61 | while not Connected a click sends nothing, yet its posted change flips the button text, which a second flip restores |
| Link.Poll | app/src/main/java/ir/doorbash/lamp/MainActivity.java:67-74 | every tick that does not fault reschedules itself last; outside Connected it only reschedules; a successful tick writes exactly the encoded "S" and keeps status, socket and queue; a failed write closes the socket, ends Disconnected and posts the retry before the next tick; with no socket it faults before rescheduling |
| Link.OnSerialConnect | app/src/main/java/ir/doorbash/lamp/MainActivity.java:171-177 | Connected, with exactly one settled status query appended after 1000 ms; socket and button text kept |
| Link.Dispatch | app/src/main/java/ir/doorbash/lamp/MainActivity.java:56-196 | running a posted runnable keeps every other entry queued in order; a retry opens a socket iff run from Disconnected with the adapter on and the target bonded, and does nothing unless Disconnected; a poll or settled query writes exactly the encoded "S" iff Connected with a working socket, and a poll that does not fault puts itself back last; only a text change touches the button, and it sets exactly its text |
| Link.Create | app/src/main/java/ir/doorbash/lamp/MainActivity.java:43-65 | runs the first connect: it faults iff there is no adapter, the enable request throws with the adapter off, or a platform call throws with the adapter on; it opens a socket iff the adapter is on, nothing throws before the open and the target is bonded; then the poll is the last entry posted; never Connected or writing |
| Link.Apply | app/src/main/java/ir/doorbash/lamp/MainActivity.java:53-203 | a click writes iff Connected with a working socket and posts the flipped text last; a read posts "Turn On" for 'n' and "Turn Off" for 'y', keeps status and socket, and faults iff empty; onSerialConnect gives Connected and queues the settled query after 1000 ms; both error callbacks and onDestroy end Disconnected with no socket and fault iff none was held, the callbacks closing it and queuing one retry after 5000 ms, onDestroy closing it and keeping the queue; running a missing entry changes nothing |
| Properties.StuckActivityFaultsOnDestroy | app/src/main/java/ir/doorbash/lamp/MainActivity.java:199-203 | after the adapter-off exit (enable request not throwing) and any clicks, reads and handler entries, the activity is still Connecting with no socket, and destroying it faults on the null socket |
| Properties.WritesOnlyWhenConnected | app/src/main/java/ir/doorbash/lamp/MainActivity.java:141-153 | an event writes only from a Connected machine holding a socket, and only a single encoded "S" or "T" |
| Invariants.ApplyKeepsSocketInv | app/src/main/java/ir/doorbash/lamp/MainActivity.java:53-203 | every event (click, handler entry, the four socket callbacks, destroy), even one that faults, keeps "Disconnected implies no socket" |
| Invariants.ConnectKeepsCounts | app/src/main/java/ir/doorbash/lamp/MainActivity.java:76-113 | connect adds no poll and leaves at most one retry or one socket, and no socket while Disconnected |
| Invariants.PollKeepsInv | app/src/main/java/ir/doorbash/lamp/MainActivity.java:67-74 | a poll tick taken from the queue puts exactly one poll back |
| Invariants.ApplyKeepsInv | app/src/main/java/ir/doorbash/lamp/MainActivity.java:53-203 | every event that does not fault keeps the socket invariant, exactly one pending poll, and retries plus sockets at most one |
| Invariants.CreateEstablishesInv | app/src/main/java/ir/doorbash/lamp/MainActivity.java:63-64 | a fresh activity satisfies the invariant unless its first connect faulted |
| Invariants.RunKeepsInv | app/src/main/java/ir/doorbash/lamp/MainActivity.java:53-203 | any run of events keeps the socket invariant, also at a fault, and the whole invariant when nothing faulted |
| Properties.SessionScenario | app/src/main/java/ir/doorbash/lamp/MainActivity.java:171-177 | start, connect, settled query writes "S", reply 'y', and the button shows "Turn Off" |
| Properties.RecoveryScenario | app/src/main/java/ir/doorbash/lamp/MainActivity.java:193-197 | a broken link gives Disconnected with one retry; the retry reopens, and reconnecting queues a new settled query |

## Left out

- UI work posted on the handler is not modelled: progress and button
  visibility, status text, the "not connected" toast. Only the toggle button's
  text is kept.
- The adapter-enable request (`startActivityForResult`) is modelled only by
  whether it throws. `onActivityResult` and all logging are not modelled.
- The device object from `getRemoteDevice` is not modelled beyond its address.
  The socket is opened to the target address. A throw from listing the bonded
  devices, from `getRemoteDevice` or from reading the device name is one
  environment flag. Every such throw ends the same way, in the null-socket
  fault, so the flag does not say which call threw.
- `SerialSocket` is not part of this model. Opening and writing are opaque
  effects whose failure is an input. Closing is assumed not to throw. Its
  callbacks are events that may arrive at any time, one at a time.
- Handler timing is not modelled. Delays are recorded on queue entries, but the
  handler may run any entry next.
- Link.Dispatch: over-approximates the handler's time order, because any
  pending entry may run next.
- What happens after a fault is not modelled. A `Crash` is an exception
  escaping the activity, possibly into the socket code that called it back, and
  the model ends the run there.
- Bytes are 0..255. Java's signed bytes compare the same way against 'n' and
  'y'.
- Codec.Encode: assumes the platform default charset is UTF-8. Strings holding
  unpaired UTF-16 surrogates cannot be represented.
- Bonded devices are a sequence, not a set. The bonding result does not depend
  on the order.

=== FILE: bonding.dfy ===
/** Whether the target peripheral is among the adapter's bonded devices. */
module Bonding {
  import opened LampTypes

  /**
   * Walks the bonded devices' addresses in order and stops at the first one
   * equal to the target address.
   */
  function BondedAmong(addresses: seq<string>): (found: bool)
    ensures found <==> DEVICE_ADDRESS in addresses
  {
    if |addresses| == 0 then false
    else if addresses[0] == DEVICE_ADDRESS then true
    else BondedAmong(addresses[1..])
  }

  /** False without an adapter; otherwise whether the target is bonded to it. */
  function DeviceIsBond(adapter: Option<Adapter>): (b: bool)
    ensures b <==> adapter.Some? && exists i :: 0 <= i < |adapter.value.bonded| && adapter.value.bonded[i] == DEVICE_ADDRESS
  {
    adapter.Some? && BondedAmong(adapter.value.bonded)
  }
}

=== FILE: codec.dfy ===
/**
 * The wire format: outgoing commands are Java strings turned into bytes with
 * the platform's default charset (UTF-8 on Android), and an incoming read is
 * judged by its first byte alone.
 */
module Codec {
  import opened LampTypes

  /** What the peripheral's reply says about the lamp. */
  datatype Reply = On | Off | Unrecognized

  /** Classifies the first byte of a read: 'y' means on, 'n' means off. */
  function ReplyOf(b: byte): (r: Reply)
    ensures r == On <==> b as int == 'y' as int
    ensures r == Off <==> b as int == 'n' as int
  {
    if b as int == 'n' as int then Off
    else if b as int == 'y' as int then On
    else Unrecognized
  }

  /**
   * The text the toggle button must show after a reply: the action the user
   * can take next, so a lamp that is off offers "Turn On".
   */
  function LabelFor(r: Reply): (l: Option<string>)
    ensures l.Some? <==> r != Unrecognized
    ensures r == Off ==> l == Some(TURN_ON)
    ensures r == On ==> l == Some(TURN_OFF)
  {
    match r
    case Off => Some(TURN_ON)
    case On => Some(TURN_OFF)
    case Unrecognized => None
  }

  predicate IsAscii(s: string) {
    forall i :: 0 <= i < |s| ==> s[i] as int < 0x80
  }

  /**
   * The code point a UTF-8 sequence of one to four bytes denotes: the lead
   * byte's payload bits followed by six payload bits from each continuation
   * byte.
   */
  function CodePoint(b: seq<byte>): int
    requires 1 <= |b| <= 4
  {
    if |b| == 1 then b[0] as int
    else if |b| == 2 then (b[0] as int - 0xC0) * 0x40 + (b[1] as int - 0x80)
    else if |b| == 3 then
      (b[0] as int - 0xE0) * 0x1000 + (b[1] as int - 0x80) * 0x40 + (b[2] as int - 0x80)
    else
      (b[0] as int - 0xF0) * 0x4_0000 + (b[1] as int - 0x80) * 0x1000
      + (b[2] as int - 0x80) * 0x40 + (b[3] as int - 0x80)
  }

  /** The UTF-8 encoding of one Unicode scalar value; decoding it gives the value back. */
  function EncodeChar(c: char): (r: seq<byte>)
    ensures 1 <= |r| <= 4
    ensures CodePoint(r) == c as int
    ensures c as int < 0x80 ==> r == [(c as int) as byte]
    ensures |r| == (if c as int < 0x80 then 1 else if c as int < 0x800 then 2 else if c as int < 0x1_0000 then 3 else 4)
    ensures |r| == 2 ==> 0xC0 <= r[0] as int < 0xE0
    ensures |r| == 3 ==> 0xE0 <= r[0] as int < 0xF0
    ensures |r| == 4 ==> 0xF0 <= r[0] as int < 0xF8
    ensures r[0] as int < 0x80 <==> c as int < 0x80
    ensures forall k :: 1 <= k < |r| ==> 0x80 <= r[k] as int < 0xC0
  {
    var n := c as int;
    var q1, r1 := n / 0x40, n % 0x40;
    var q2, r2 := q1 / 0x40, q1 % 0x40;
    var q3, r3 := q2 / 0x40, q2 % 0x40;
    assert n == q1 * 0x40 + r1 && q1 == q2 * 0x40 + r2 && q2 == q3 * 0x40 + r3;
    if n < 0x80 then
      [n as byte]
    else if n < 0x800 then
      [(0xC0 + q1) as byte, (0x80 + r1) as byte]
    else if n < 0x1_0000 then
      [(0xE0 + q2) as byte, (0x80 + r2) as byte, (0x80 + r1) as byte]
    else
      [(0xF0 + q3) as byte, (0x80 + r3) as byte, (0x80 + r2) as byte, (0x80 + r1) as byte]
  }

  /** `String.getBytes()` under UTF-8: the characters' encodings, in order. */
  function Encode(s: string): (r: seq<byte>)
    ensures |s| <= |r| <= 4 * |s|
  {
    if |s| == 0 then [] else EncodeChar(s[0]) + Encode(s[1..])
  }

  /** On ASCII text the encoding is one byte per character, equal to its code. */
  lemma {:induction false} EncodeAscii(s: string)
    requires IsAscii(s)
    ensures |Encode(s)| == |s|
    ensures forall i :: 0 <= i < |s| ==> Encode(s)[i] as int == s[i] as int
  {
    if |s| > 0 {
      assert IsAscii(s[1..]) by {
        forall i | 0 <= i < |s[1..]| ensures s[1..][i] as int < 0x80 {
          assert s[1..][i] == s[i + 1];
        }
      }
      EncodeAscii(s[1..]);
      assert Encode(s) == EncodeChar(s[0]) + Encode(s[1..]);
      forall i | 0 <= i < |s| ensures Encode(s)[i] as int == s[i] as int {
        if i > 0 {
          assert Encode(s)[i] == Encode(s[1..])[i - 1];
          assert s[1..][i - 1] == s[i];
        }
      }
    }
  }

  /** Encoding distributes over concatenation. */
  lemma {:induction false} EncodeAppend(a: string, b: string)
    ensures Encode(a + b) == Encode(a) + Encode(b)
  {
    if |a| == 0 {
      assert a + b == b;
    } else {
      var c := EncodeChar(a[0]);
      assert (a + b)[1..] == a[1..] + b;
      EncodeAppend(a[1..], b);
      calc {
        Encode(a + b);
        c + Encode(a[1..] + b);
        c + (Encode(a[1..]) + Encode(b));
        (c + Encode(a[1..])) + Encode(b);
        Encode(a) + Encode(b);
      }
    }
  }
}

=== FILE: invariants.dfy ===
/**
 * What every event keeps true of the activity: no socket is held while
 * Disconnected, exactly one status poll is always pending, and at most one
 * connect retry is pending, never while a socket is held.
 */
module Invariants {
  import opened LampTypes
  import Link
  import Codec
  import Bonding

  /** How many queue entries run `a`. */
  function Count(p: seq<Pending>, a: Action): (n: nat)
    ensures n <= |p|
  {
    if |p| == 0 then 0
    else (if p[0].action == a then 1 else 0) + Count(p[1..], a)
  }

  lemma {:induction false} CountAppend(p: seq<Pending>, q: seq<Pending>, a: Action)
    ensures Count(p + q, a) == Count(p, a) + Count(q, a)
  {
    if |p| == 0 {
      assert p + q == q;
    } else {
      assert (p + q)[0] == p[0];
      assert (p + q)[1..] == p[1..] + q;
      CountAppend(p[1..], q, a);
    }
  }

  /** Scheduling adds one to the count of the scheduled action only. */
  lemma CountSchedule(m: Machine, b: Action, delay: nat, a: Action)
    ensures Count(Link.Schedule(m, b, delay).pending, a) == Count(m.pending, a) + (if b == a then 1 else 0)
  {
    CountAppend(m.pending, [Pending(b, delay)], a);
    assert [Pending(b, delay)][1..] == [];
  }

  /** Taking entry `i` out removes it from its action's count only. */
  lemma CountWithout(p: seq<Pending>, i: nat, a: Action)
    requires i < |p|
    ensures Count(Link.Without(p, i), a) == Count(p, a) - (if p[i].action == a then 1 else 0)
  {
    assert p == p[..i] + [p[i]] + p[i + 1..];
    CountAppend(p[..i] + [p[i]], p[i + 1..], a);
    CountAppend(p[..i], [p[i]], a);
    CountAppend(p[..i], p[i + 1..], a);
    assert [p[i]][1..] == [];
  }

  /** No socket is held while Disconnected. */
  predicate SocketInv(m: Machine) {
    m.status == Disconnected ==> m.socket.None?
  }

  function Held(m: Machine): nat {
    if m.socket.Some? then 1 else 0
  }

  predicate Inv(m: Machine) {
    && SocketInv(m)
    && Count(m.pending, PollStatus) == 1
    && Count(m.pending, RetryConnect) + Held(m) <= 1
  }

  /** The retry/socket budget and the poll count after a link error. */
  lemma OnLinkErrorKeepsCounts(m: Machine, a: Action)
    requires a != RetryConnect
    ensures var r := Link.OnLinkError(m);
            r.Ok? ==> && Count(r.m.pending, a) == Count(m.pending, a)
                      && Count(r.m.pending, RetryConnect) + Held(r.m) == Count(m.pending, RetryConnect) + Held(m)
  {
    var r := Link.OnLinkError(m);
    if r.Ok? {
      CountAppend(m.pending, [Pending(RetryConnect, CONNECT_AGAIN_INTERVAL)], a);
      CountAppend(m.pending, [Pending(RetryConnect, CONNECT_AGAIN_INTERVAL)], RetryConnect);
      assert [Pending(RetryConnect, CONNECT_AGAIN_INTERVAL)][1..] == [];
    }
  }

  /** `send` keeps the poll count and the retry/socket budget. */
  lemma SendKeepsCounts(m: Machine, str: string, env: Env)
    ensures var r := Link.Send(m, str, env);
            r.Ok? ==> && Count(r.m.pending, PollStatus) == Count(m.pending, PollStatus)
                      && Count(r.m.pending, RetryConnect) + Held(r.m) == Count(m.pending, RetryConnect) + Held(m)
  {
    if m.status == Connected && (m.socket.None? || env.writeThrows) {
      OnLinkErrorKeepsCounts(m, PollStatus);
    }
  }

  /**
   * `connect()` from a machine with no socket held when Disconnected, and no
   * pending retry, leaves at most one retry or one socket, and no new poll.
   */
  lemma ConnectKeepsCounts(m: Machine, env: Env)
    requires SocketInv(m)
    requires Count(m.pending, RetryConnect) + Held(m) <= 1
    requires m.status == Disconnected ==> Count(m.pending, RetryConnect) == 0
    ensures var r := Link.Connect(m, env);
            r.Ok? ==> && SocketInv(r.m)
                      && Count(r.m.pending, PollStatus) == Count(m.pending, PollStatus)
                      && Count(r.m.pending, RetryConnect) + Held(r.m) <= 1
  {
    if m.status == Disconnected && (env.bluetoothFeature || !m.hasAdapter) && env.adapter.Some? {
      var looked := m.(status := Connecting, hasAdapter := true);
      if !env.adapter.value.enabled {
        CountSchedule(looked, RetryConnect, CONNECT_AGAIN_INTERVAL, PollStatus);
        CountSchedule(looked, RetryConnect, CONNECT_AGAIN_INTERVAL, RetryConnect);
        if env.enableThrows {
          OnLinkErrorKeepsCounts(Link.Schedule(looked, RetryConnect, CONNECT_AGAIN_INTERVAL), PollStatus);
        }
      } else if Bonding.DeviceIsBond(env.adapter) && env.openThrows {
        OnLinkErrorKeepsCounts(looked.(socket := Some(Socket(DEVICE_ADDRESS))), PollStatus);
      }
    }
  }

  /** Every event keeps the socket invariant, whether or not it faults. */
  lemma ApplyKeepsSocketInv(m: Machine, input: Input)
    requires SocketInv(m)
    ensures SocketInv(Link.Apply(m, input).m)
  {
  }

  lemma ClickKeepsInv(m: Machine, env: Env)
    requires Inv(m)
    ensures Link.Click(m, env).Ok? ==> Inv(Link.Click(m, env).m)
  {
    var o := Link.Send(m, "T", env);
    SendKeepsCounts(m, "T", env);
    if o.Ok? {
      CountSchedule(o.m, SetLabel(Link.Flipped(o.m.toggleText)), 0, PollStatus);
      CountSchedule(o.m, SetLabel(Link.Flipped(o.m.toggleText)), 0, RetryConnect);
    }
  }

  lemma PollKeepsInv(m: Machine, env: Env)
    requires SocketInv(m)
    requires Count(m.pending, PollStatus) == 0
    requires Count(m.pending, RetryConnect) + Held(m) <= 1
    ensures Link.Poll(m, env).Ok? ==> Inv(Link.Poll(m, env).m)
  {
    var o := if m.status == Connected then Link.Send(m, "S", env) else Ok(m, []);
    SendKeepsCounts(m, "S", env);
    if o.Ok? {
      CountSchedule(o.m, PollStatus, STATUS_CHECK_INTERVAL, PollStatus);
      CountSchedule(o.m, PollStatus, STATUS_CHECK_INTERVAL, RetryConnect);
    }
  }

  lemma DispatchKeepsInv(m: Machine, i: nat, env: Env)
    requires Inv(m)
    requires i < |m.pending|
    ensures Link.Dispatch(m, i, env).Ok? ==> Inv(Link.Dispatch(m, i, env).m)
  {
    var rest := m.(pending := Link.Without(m.pending, i));
    CountWithout(m.pending, i, PollStatus);
    CountWithout(m.pending, i, RetryConnect);
    match m.pending[i].action
    case RetryConnect =>
      ConnectKeepsCounts(rest, env);
    case PollStatus =>
      PollKeepsInv(rest, env);
    case SettledQuery =>
      SendKeepsCounts(rest, "S", env);
    case SetLabel(_) =>
  }

  lemma ReceiveKeepsInv(m: Machine, data: seq<byte>)
    requires Inv(m)
    ensures Link.Receive(m, data).Ok? ==> Inv(Link.Receive(m, data).m)
  {
    var o := Link.Receive(m, data);
    if o.Ok? && o.m != m {
      var text := Codec.LabelFor(Codec.ReplyOf(data[0])).value;
      CountSchedule(m, SetLabel(text), 0, PollStatus);
      CountSchedule(m, SetLabel(text), 0, RetryConnect);
    }
  }

  /** Every event that does not fault keeps the whole invariant. */
  lemma ApplyKeepsInv(m: Machine, input: Input)
    requires Inv(m)
    ensures Link.Apply(m, input).Ok? ==> Inv(Link.Apply(m, input).m)
  {
    match input.event
    case Click =>
      ClickKeepsInv(m, input.env);
    case Run(i) =>
      if i < |m.pending| {
        DispatchKeepsInv(m, i, input.env);
      }
    case SerialConnect =>
      CountSchedule(m.(status := Connected), SettledQuery, SETTLE_DELAY, PollStatus);
      CountSchedule(m.(status := Connected), SettledQuery, SETTLE_DELAY, RetryConnect);
    case SerialConnectError =>
      OnLinkErrorKeepsCounts(m, PollStatus);
    case SerialIoError =>
      OnLinkErrorKeepsCounts(m, PollStatus);
    case SerialRead(data) =>
      ReceiveKeepsInv(m, data);
    case Destroy =>
  }

  /** A fresh activity that does not fault on its first connect satisfies the invariant. */
  lemma CreateEstablishesInv(text: string, env: Env)
    ensures SocketInv(Link.Create(text, env).m)
    ensures Link.Create(text, env).Ok? ==> Inv(Link.Create(text, env).m)
  {
  }

  /**
   * Over any run: the socket invariant holds at the end, even after a fault,
   * and the whole invariant holds when no event faulted.
   */
  lemma {:induction false} RunKeepsInv(m: Machine, inputs: seq<Input>)
    requires Inv(m)
    ensures SocketInv(Link.RunAll(m, inputs).m)
    ensures Link.RunAll(m, inputs).Ok? ==> Inv(Link.RunAll(m, inputs).m)
    decreases |inputs|
  {
    if |inputs| > 0 {
      var o := Link.Apply(m, inputs[0]);
      ApplyKeepsSocketInv(m, inputs[0]);
      if o.Ok? {
        ApplyKeepsInv(m, inputs[0]);
        RunKeepsInv(o.m, inputs[1..]);
      }
    }
  }
}

=== FILE: link.dfy ===
/**
 * The activity's connection state machine. Every method of the activity that
 * touches the connection is a pure function from the current machine (and the
 * environment facts it reads) to an Outcome. Work the code posts on its
 * handler is appended to the machine's pending queue; the handler running an
 * entry is the `Dispatch` event.
 */
module Link {
  import opened LampTypes
  import Codec
  import Bonding

  /** Posts `a` on the handler to run after `delay` milliseconds. */
  function Schedule(m: Machine, a: Action, delay: nat): Machine {
    m.(pending := m.pending + [Pending(a, delay)])
  }

  /** Puts effects `pre`, performed first, in front of the outcome of what followed. */
  function After(pre: seq<Effect>, o: Outcome): (r: Outcome)
    ensures r.m == o.m && r.Crash? == o.Crash?
    ensures r.effects == pre + o.effects
    ensures r.Crash? ==> r.fault == o.fault
  {
    match o
    case Ok(m, e) => Ok(m, pre + e)
    case Crash(f, m, e) => Crash(f, m, pre + e)
  }

  /**
   * `disconnect()`: marks the link down, then closes and clears the socket.
   * The socket is dereferenced unconditionally, so without one the call
   * faults after the status has already been changed.
   */
  function Disconnect(m: Machine): (r: Outcome)
    ensures r.m.status == Disconnected && r.m.socket.None?
    ensures r.Crash? <==> m.socket.None?
    ensures r.Crash? ==> r.fault == NullSocket && r.effects == []
    ensures r.Ok? ==> r.effects == [Close]
    ensures r.m.pending == m.pending && r.m.toggleText == m.toggleText && r.m.hasAdapter == m.hasAdapter
  {
    var down := m.(status := Disconnected);
    if m.socket.None? then Crash(NullSocket, down, [])
    else Ok(down.(socket := None), [Close])
  }

  /**
   * `onSerialConnectError` and `onSerialIoError`, which do the same to the
   * connection: disconnect, then retry the connect after the fixed interval.
   */
  function OnLinkError(m: Machine): (r: Outcome)
    ensures r.m.status == Disconnected && r.m.socket.None?
    ensures r.Crash? <==> m.socket.None?
    ensures r.Ok? ==> r.m.pending == m.pending + [Pending(RetryConnect, CONNECT_AGAIN_INTERVAL)]
    ensures r.Crash? ==> r.m.pending == m.pending
    ensures r.Ok? ==> r.effects == [Close]
    ensures r.Crash? ==> r.fault == NullSocket && r.effects == []
    ensures !Opened(r.effects) && !Wrote(r.effects)
    ensures r.m.toggleText == m.toggleText && r.m.hasAdapter == m.hasAdapter
  {
    var o := Disconnect(m);
    if o.Crash? then o
    else Ok(Schedule(o.m, RetryConnect, CONNECT_AGAIN_INTERVAL), o.effects)
  }

  /**
   * `connect()`. Only acts from Disconnected, and moves to Connecting before any
   * check. It then looks up the default adapter (when the feature is present or
   * the adapter field is still unset), and stops early when the adapter is off
   * (retrying later) or the target is not bonded. Otherwise it opens a socket to
   * the target. A throw anywhere in that block is handed to the connect-error
   * callback: the null-adapter dereference, the enable request throwing after
   * the retry is posted, a platform call throwing before the socket exists, or
   * the open itself.
   */
  function Connect(m: Machine, env: Env): (r: Outcome)
    ensures m.status != Disconnected ==> r == Ok(m, [])
    ensures r.m.status == Connected ==> m.status == Connected
    ensures Opened(r.effects) ==>
              && m.status == Disconnected
              && (env.bluetoothFeature || !m.hasAdapter)
              && env.adapter.Some? && env.adapter.value.enabled && !env.lookupThrows
              && DEVICE_ADDRESS in env.adapter.value.bonded
    ensures !Wrote(r.effects)
    ensures r.m.toggleText == m.toggleText
  {
    if m.status != Disconnected then Ok(m, [])
    else
      var attempting := m.(status := Connecting);
      if env.bluetoothFeature || !attempting.hasAdapter then
        var looked := attempting.(hasAdapter := env.adapter.Some?);
        if env.adapter.None? then
          OnLinkError(looked)
        else if !env.adapter.value.enabled then
          var waiting := Schedule(looked, RetryConnect, CONNECT_AGAIN_INTERVAL);
          if env.enableThrows then OnLinkError(waiting) else Ok(waiting, [])
        else if env.lookupThrows then
          OnLinkError(looked)
        else if !Bonding.DeviceIsBond(env.adapter) then
          Ok(looked, [])
        else
          var opening := looked.(socket := Some(Socket(DEVICE_ADDRESS)));
          if env.openThrows then
            After([Open(DEVICE_ADDRESS)], OnLinkError(opening))
          else
            Ok(opening, [Open(DEVICE_ADDRESS)])
      else
        Ok(attempting, [])
  }

  /**
   * `send(str)`: writes the encoded text only when Connected; otherwise does
   * nothing (the user only sees a toast). A throwing write, or a write through
   * a null socket, goes to the I/O-error callback.
   */
  function Send(m: Machine, str: string, env: Env): (r: Outcome)
    ensures m.status != Connected ==> r == Ok(m, [])
    ensures Wrote(r.effects) <==> m.status == Connected && m.socket.Some? && !env.writeThrows
    ensures Wrote(r.effects) ==> r == Ok(m, [Write(Codec.Encode(str))])
    ensures m.status == Connected && !Wrote(r.effects) ==>
              && r.m.status == Disconnected && r.m.socket.None?
              && (r.Crash? <==> m.socket.None?)
              && (r.Ok? ==> r.effects == [Close] && r.m.pending == m.pending + [Pending(RetryConnect, CONNECT_AGAIN_INTERVAL)])
    ensures !Opened(r.effects)
    ensures r.m.toggleText == m.toggleText
  {
    if m.status != Connected then Ok(m, [])
    else if m.socket.None? || env.writeThrows then OnLinkError(m)
    else
      var written := [Write(Codec.Encode(str))];
      assert written[0].Write?;
      Ok(m, written)
  }

  /**
   * `receive(data)`: posts the toggle text that matches the reply in the first
   * byte, and nothing for any other byte. An empty read faults on `data[0]`.
   */
  function Receive(m: Machine, data: seq<byte>): (r: Outcome)
    ensures r.m.status == m.status && r.m.socket == m.socket && r.m.toggleText == m.toggleText
    ensures r.effects == []
    ensures r.Crash? <==> |data| == 0
    ensures r.Crash? ==> r.fault == EmptyRead && r.m == m
    ensures |data| > 0 && data[0] as int == 'n' as int ==> r.m.pending == m.pending + [Pending(SetLabel(TURN_ON), 0)]
    ensures |data| > 0 && data[0] as int == 'y' as int ==> r.m.pending == m.pending + [Pending(SetLabel(TURN_OFF), 0)]
    ensures |data| > 0 && data[0] as int != 'n' as int && data[0] as int != 'y' as int ==> r.m == m
  {
    if |data| == 0 then Crash(EmptyRead, m, [])
    else
      match Codec.LabelFor(Codec.ReplyOf(data[0]))
      case Some(text) => Ok(Schedule(m, SetLabel(text), 0), [])
      case None => Ok(m, [])
  }

  /** The text the toggle click posts: the other of the two button texts. */
  function Flipped(text: string): (t: string)
    ensures t == TURN_ON || t == TURN_OFF
    ensures t == TURN_ON <==> text == TURN_OFF
  {
    if text == TURN_OFF then TURN_ON else TURN_OFF
  }

  /**
   * The toggle button's click handler: sends "T", then posts the flipped
   * button text, whether or not anything was sent.
   */
  function Click(m: Machine, env: Env): (r: Outcome)
    ensures m.status != Connected ==> r == Ok(Schedule(m, SetLabel(Flipped(m.toggleText)), 0), [])
    ensures Wrote(r.effects) <==> m.status == Connected && m.socket.Some? && !env.writeThrows
    ensures Wrote(r.effects) ==>
              r == Ok(Schedule(m, SetLabel(Flipped(m.toggleText)), 0), [Write(Codec.Encode("T"))])
    ensures m.status == Connected && m.socket.Some? && env.writeThrows ==>
              r == Ok(m.(status := Disconnected, socket := None,
                         pending := m.pending + [Pending(RetryConnect, CONNECT_AGAIN_INTERVAL),
                                                 Pending(SetLabel(Flipped(m.toggleText)), 0)]),
                      [Close])
    ensures m.status == Connected && m.socket.None? ==> r == Crash(NullSocket, m.(status := Disconnected), [])
    ensures r.Ok? ==> |r.m.pending| > 0 && r.m.pending[|r.m.pending| - 1] == Pending(SetLabel(Flipped(m.toggleText)), 0)
    ensures r.m.toggleText == m.toggleText
  {
    var o := Send(m, "T", env);
    if o.Crash? then o
    else Ok(Schedule(o.m, SetLabel(Flipped(o.m.toggleText)), 0), o.effects)
  }

  /**
   * One tick of the status poll started by `setCheckStatusInterval()`: sends
   * "S" when Connected, then schedules the next tick unconditionally.
   */
  function Poll(m: Machine, env: Env): (r: Outcome)
    ensures r.Ok? ==> |r.m.pending| > 0 && r.m.pending[|r.m.pending| - 1] == Pending(PollStatus, STATUS_CHECK_INTERVAL)
    ensures m.status != Connected ==> r == Ok(Schedule(m, PollStatus, STATUS_CHECK_INTERVAL), [])
    ensures Wrote(r.effects) <==> m.status == Connected && m.socket.Some? && !env.writeThrows
    ensures Wrote(r.effects) ==> r == Ok(Schedule(m, PollStatus, STATUS_CHECK_INTERVAL), [Write(Codec.Encode("S"))])
    ensures m.status == Connected && !Wrote(r.effects) ==>
              && r.m.status == Disconnected && r.m.socket.None?
              && (r.Crash? <==> m.socket.None?)
              && (r.Ok? ==> r.effects == [Close] &&
                            r.m.pending == m.pending + [Pending(RetryConnect, CONNECT_AGAIN_INTERVAL),
                                                        Pending(PollStatus, STATUS_CHECK_INTERVAL)])
    ensures r.m.toggleText == m.toggleText
  {
    var o := if m.status == Connected then Send(m, "S", env) else Ok(m, []);
    if o.Crash? then o
    else Ok(Schedule(o.m, PollStatus, STATUS_CHECK_INTERVAL), o.effects)
  }

  /**
   * `onSerialConnect`: the link is up; one status query follows after the
   * settle delay.
   */
  function OnSerialConnect(m: Machine): (r: Machine)
    ensures r.status == Connected
    ensures r.pending == m.pending + [Pending(SettledQuery, SETTLE_DELAY)]
    ensures r.socket == m.socket && r.toggleText == m.toggleText && r.hasAdapter == m.hasAdapter
  {
    Schedule(m.(status := Connected), SettledQuery, SETTLE_DELAY)
  }

  /** The queue with entry `i` taken out. */
  function Without(p: seq<Pending>, i: nat): (q: seq<Pending>)
    requires i < |p|
    ensures |q| == |p| - 1
    ensures forall k :: 0 <= k < i ==> q[k] == p[k]
    ensures forall k :: i <= k < |q| ==> q[k] == p[k + 1]
  {
    p[..i] + p[i + 1..]
  }

  /**
   * The handler runs its pending entry `i`: the entry leaves the queue, then
   * its work runs. Every other entry stays queued in order. Only a retry can
   * open a socket, and from Disconnected with the adapter on and the target
   * bonded it does. Only a poll or the settled query can write, and each does
   * exactly when Connected with a working socket; a poll puts itself back.
   * Only a text change touches the button.
   */
  function Dispatch(m: Machine, i: nat, env: Env): (r: Outcome)
    requires i < |m.pending|
    ensures r.Ok? ==> Without(m.pending, i) <= r.m.pending
    ensures Opened(r.effects) ==>
              && m.pending[i].action == RetryConnect && m.status == Disconnected
              && (env.bluetoothFeature || !m.hasAdapter)
              && env.adapter.Some? && env.adapter.value.enabled && !env.lookupThrows
              && DEVICE_ADDRESS in env.adapter.value.bonded
    ensures Wrote(r.effects) ==>
              && (m.pending[i].action == PollStatus || m.pending[i].action == SettledQuery)
              && m.status == Connected
              && r.effects == [Write(Codec.Encode("S"))]
    ensures m.pending[i].action == PollStatus || m.pending[i].action == SettledQuery ==>
              (Wrote(r.effects) <==> m.status == Connected && m.socket.Some? && !env.writeThrows)
    ensures m.pending[i].action == PollStatus && r.Ok? ==>
              |r.m.pending| > 0 && r.m.pending[|r.m.pending| - 1] == Pending(PollStatus, STATUS_CHECK_INTERVAL)
    ensures m.pending[i].action == RetryConnect && m.status == Disconnected
            && (env.bluetoothFeature || !m.hasAdapter)
            && env.adapter.Some? && env.adapter.value.enabled && !env.lookupThrows
            && DEVICE_ADDRESS in env.adapter.value.bonded ==>
              |r.effects| > 0 && r.effects[0] == Open(DEVICE_ADDRESS)
    ensures m.pending[i].action == RetryConnect && m.status != Disconnected ==>
              r == Ok(m.(pending := Without(m.pending, i)), [])
    ensures m.pending[i].action.SetLabel? ==>
              r == Ok(m.(pending := Without(m.pending, i), toggleText := m.pending[i].action.text), [])
    ensures !m.pending[i].action.SetLabel? ==> r.m.toggleText == m.toggleText
  {
    var rest := m.(pending := Without(m.pending, i));
    match m.pending[i].action
    case RetryConnect => Connect(rest, env)
    case PollStatus => Poll(rest, env)
    case SettledQuery => Send(rest, "S", env)
    case SetLabel(text) => Ok(rest.(toggleText := text), [])
  }

  /**
   * `onCreate`: a fresh activity (Disconnected, no adapter, no socket, the
   * layout's button text) connects once and starts the status poll.
   */
  function Create(text: string, env: Env): (r: Outcome)
    ensures r.Ok? ==> |r.m.pending| > 0 && r.m.pending[|r.m.pending| - 1] == Pending(PollStatus, STATUS_CHECK_INTERVAL)
    ensures r.m.status != Connected
    ensures r.Crash? <==>
              || env.adapter.None?
              || (!env.adapter.value.enabled && env.enableThrows)
              || (env.adapter.value.enabled && env.lookupThrows)
    ensures Opened(r.effects) <==>
              && env.adapter.Some? && env.adapter.value.enabled && !env.lookupThrows
              && DEVICE_ADDRESS in env.adapter.value.bonded
    ensures !Wrote(r.effects)
    ensures r.m.toggleText == text
  {
    var o := Connect(Machine(Disconnected, false, None, text, []), env);
    if o.Crash? then o
    else
      assert o.effects != [] ==> o.effects[0].Open?;
      Ok(Schedule(o.m, PollStatus, STATUS_CHECK_INTERVAL), o.effects)
  }

  /**
   * One external event, routed to its handler: a click sends "T" and posts the
   * flipped text, a read posts the matching text, a connect callback queues
   * the settled query, both error callbacks close the socket and queue a
   * retry, and `Destroy` is `onDestroy`, which disconnects. Running an entry
   * the queue does not hold changes nothing.
   */
  function Apply(m: Machine, input: Input): (r: Outcome)
    ensures input.event.Destroy? ==>
              && r.m.status == Disconnected && r.m.socket.None?
              && (r.Crash? <==> m.socket.None?)
              && (r.Ok? ==> r.effects == [Close] && r.m.pending == m.pending)
    ensures input.event.SerialRead? ==>
              && r.m.status == m.status && r.m.socket == m.socket && r.effects == []
              && (r.Crash? <==> |input.event.data| == 0)
    ensures input.event.SerialRead? && |input.event.data| > 0 && input.event.data[0] as int == 'n' as int ==>
              r.m.pending == m.pending + [Pending(SetLabel(TURN_ON), 0)]
    ensures input.event.SerialRead? && |input.event.data| > 0 && input.event.data[0] as int == 'y' as int ==>
              r.m.pending == m.pending + [Pending(SetLabel(TURN_OFF), 0)]
    ensures input.event.SerialConnect? ==>
              && r.Ok? && r.m.status == Connected && r.m.socket == m.socket && r.effects == []
              && r.m.pending == m.pending + [Pending(SettledQuery, SETTLE_DELAY)]
    ensures input.event.SerialConnectError? || input.event.SerialIoError? ==>
              && r.m.status == Disconnected && r.m.socket.None?
              && (r.Crash? <==> m.socket.None?)
              && (r.Ok? ==> r.effects == [Close] && r.m.pending == m.pending + [Pending(RetryConnect, CONNECT_AGAIN_INTERVAL)])
    ensures input.event.Click? ==>
              && (Wrote(r.effects) <==> m.status == Connected && m.socket.Some? && !input.env.writeThrows)
              && (r.Ok? ==> |r.m.pending| > 0 && r.m.pending[|r.m.pending| - 1] == Pending(SetLabel(Flipped(m.toggleText)), 0))
    ensures input.event.Run? && input.event.index >= |m.pending| ==> r == Ok(m, [])
  {
    match input.event
    case Click => Click(m, input.env)
    case Run(i) => if i < |m.pending| then Dispatch(m, i, input.env) else Ok(m, [])
    case SerialConnect => Ok(OnSerialConnect(m), [])
    case SerialConnectError => OnLinkError(m)
    case SerialIoError => OnLinkError(m)
    case SerialRead(data) => Receive(m, data)
    case Destroy => Disconnect(m)
  }

  /** A sequence of events; the first fault ends the run. */
  function RunAll(m: Machine, inputs: seq<Input>): Outcome
    decreases |inputs|
  {
    if |inputs| == 0 then Ok(m, [])
    else
      var o := Apply(m, inputs[0]);
      if o.Crash? then o else After(o.effects, RunAll(o.m, inputs[1..]))
  }
}

=== FILE: properties.dfy ===
/**
 * Behaviour of the state machine across several calls: the early exits of
 * `connect()`, the retry that cannot fire, the stall in Connecting, where
 * bytes can be written, and the end-to-end exchanges of a session.
 */
module Properties {
  import opened LampTypes
  import Link
  import Codec
  import Invariants

  /**
   * The three exits of `connect()` that open no socket. All of them leave the
   * machine Connecting; only the adapter-off exit schedules a retry.
   */
  lemma ConnectEarlyExits(m: Machine, env: Env)
    requires m.status == Disconnected
    ensures var r := Link.Connect(m, env);
            var looked := m.(status := Connecting, hasAdapter := true);
            && ((env.bluetoothFeature || !m.hasAdapter) && env.adapter.Some? && !env.adapter.value.enabled
                && !env.enableThrows ==>
                  r == Ok(looked.(pending := m.pending + [Pending(RetryConnect, CONNECT_AGAIN_INTERVAL)]), []))
            && ((env.bluetoothFeature || !m.hasAdapter) && env.adapter.Some? && env.adapter.value.enabled
                && !env.lookupThrows && DEVICE_ADDRESS !in env.adapter.value.bonded ==>
                  r == Ok(looked, []))
            && (!env.bluetoothFeature && m.hasAdapter ==>
                  r == Ok(m.(status := Connecting), []))
  {
  }

  /**
   * The paths of `connect()` that reach the socket, and the paths that throw
   * before it exists: a clean open leaves the socket held while Connecting; a
   * throwing open goes down the error callback and retries; a missing adapter,
   * a throwing enable request (its retry already posted), or a platform call
   * throwing before the socket is created, goes down the same callback, which
   * then faults on the null socket.
   */
  lemma ConnectAttempts(m: Machine, env: Env)
    requires m.status == Disconnected
    requires Invariants.SocketInv(m)
    ensures var r := Link.Connect(m, env);
            var ready := (env.bluetoothFeature || !m.hasAdapter) && env.adapter.Some?
                         && env.adapter.value.enabled && !env.lookupThrows
                         && DEVICE_ADDRESS in env.adapter.value.bonded;
            && (ready && !env.openThrows ==>
                  r == Ok(m.(status := Connecting, hasAdapter := true, socket := Some(Socket(DEVICE_ADDRESS))),
                          [Open(DEVICE_ADDRESS)]))
            && (ready && env.openThrows ==>
                  r == Ok(m.(hasAdapter := true, pending := m.pending + [Pending(RetryConnect, CONNECT_AGAIN_INTERVAL)]),
                          [Open(DEVICE_ADDRESS), Close]))
            && ((env.bluetoothFeature || !m.hasAdapter) && env.adapter.None? ==>
                  r == Crash(NullSocket, m.(hasAdapter := false), []))
            && ((env.bluetoothFeature || !m.hasAdapter) && env.adapter.Some? && env.adapter.value.enabled
                && env.lookupThrows ==>
                  r == Crash(NullSocket, m.(hasAdapter := true), []))
            && ((env.bluetoothFeature || !m.hasAdapter) && env.adapter.Some? && !env.adapter.value.enabled
                && env.enableThrows ==>
                  r == Crash(NullSocket, m.(hasAdapter := true, pending := m.pending + [Pending(RetryConnect, CONNECT_AGAIN_INTERVAL)]), []))
  {
  }

  /**
   * On a platform without an adapter the very first `connect()` faults: the
   * adapter field is still unset, so the lookup runs whatever the feature
   * says, the null adapter throws, and the error callback then dereferences
   * the null socket.
   */
  lemma FirstConnectWithoutAdapterFaults(text: string, env: Env)
    requires env.adapter.None?
    ensures Link.Create(text, env) == Crash(NullSocket, Machine(Disconnected, false, None, text, []), [])
  {
  }

  /**
   * The retry posted by the adapter-off exit does nothing when it runs, in any
   * later environment, because the machine is still Connecting: the entry
   * leaves the queue and nothing else changes. (When the enable request
   * throws, `ConnectAttempts` shows the fault instead.)
   */
  lemma DisabledRetryIsNoOp(m: Machine, env: Env, later: Env)
    requires m.status == Disconnected
    requires env.bluetoothFeature || !m.hasAdapter
    requires env.adapter.Some? && !env.adapter.value.enabled && !env.enableThrows
    ensures var o := Link.Connect(m, env);
            && o.Ok? && o.m.status == Connecting && o.effects == []
            && |o.m.pending| == |m.pending| + 1
            && o.m.pending[|m.pending|] == Pending(RetryConnect, CONNECT_AGAIN_INTERVAL)
            && Link.Dispatch(o.m, |m.pending|, later) == Ok(o.m.(pending := m.pending), [])
  {
  }

  /** Events that come from the app itself or the user, not from the socket. */
  predicate Quiet(e: Event) {
    e.Click? || e.Run? || e.SerialRead?
  }

  lemma QuietStepFromConnecting(m: Machine, input: Input)
    requires m.status == Connecting
    requires Quiet(input.event)
    ensures var r := Link.Apply(m, input);
            r.m.status == Connecting && r.m.socket == m.socket && r.effects == []
  {
  }

  /**
   * Once Connecting, only a socket callback or `onDestroy` can move the
   * machine: clicks, reads and every handler entry (retries and polls
   * included) leave it Connecting with the same socket, and nothing is opened
   * or written. After an adapter-off or not-bonded exit no socket exists to
   * call back, so the activity stays Connecting for good.
   */
  lemma {:induction false} StuckConnecting(m: Machine, inputs: seq<Input>)
    requires m.status == Connecting
    requires forall k :: 0 <= k < |inputs| ==> Quiet(inputs[k].event)
    ensures var r := Link.RunAll(m, inputs);
            r.m.status == Connecting && r.m.socket == m.socket && r.effects == []
    decreases |inputs|
  {
    if |inputs| > 0 {
      QuietStepFromConnecting(m, inputs[0]);
      var o := Link.Apply(m, inputs[0]);
      if o.Ok? {
        StuckConnecting(o.m, inputs[1..]);
      }
    }
  }

  /**
   * After the adapter-off exit whose enable request does not throw, whatever
   * clicks, reads and handler entries follow, the activity is still Connecting without a socket, so destroying
   * it faults on the null socket in `disconnect()`.
   */
  lemma {:induction false} StuckActivityFaultsOnDestroy(m: Machine, env: Env, inputs: seq<Input>, later: Env)
    requires m.status == Disconnected && m.socket.None?
    requires env.bluetoothFeature || !m.hasAdapter
    requires env.adapter.Some? && !env.adapter.value.enabled && !env.enableThrows
    requires forall k :: 0 <= k < |inputs| ==> Quiet(inputs[k].event)
    ensures var after := Link.RunAll(Link.Connect(m, env).m, inputs);
            && after.m.status == Connecting && after.m.socket.None?
            && (after.Ok? ==>
                  Link.Apply(after.m, Input(Destroy, later)) == Crash(NullSocket, after.m.(status := Disconnected), []))
  {
    var start := Link.Connect(m, env).m;
    StuckConnecting(start, inputs);
  }

  /**
   * Bytes reach the socket only from a Connected machine holding a socket, and
   * they are always a single encoded "S" or "T".
   */
  lemma WritesOnlyWhenConnected(m: Machine, input: Input)
    ensures var r := Link.Apply(m, input);
            Wrote(r.effects) ==>
              && m.status == Connected && m.socket.Some?
              && (r.effects == [Write(Codec.Encode("S"))] || r.effects == [Write(Codec.Encode("T"))])
  {
  }

  /**
   * A recognised reply posts the matching button text, which the handler then
   * puts on the button, leaving the queue as it was before the read.
   */
  lemma ReplyReachesButton(m: Machine, data: seq<byte>, env: Env)
    requires |data| > 0 && Codec.ReplyOf(data[0]) != Codec.Unrecognized
    ensures var r := Link.Receive(m, data);
            && r.Ok? && |r.m.pending| == |m.pending| + 1
            && var shown := Link.Dispatch(r.m, |m.pending|, env);
               && shown == Ok(m.(toggleText := Codec.LabelFor(Codec.ReplyOf(data[0])).value), [])
               && (data[0] as int == 'y' as int ==> shown.m.toggleText == TURN_OFF)
               && (data[0] as int == 'n' as int ==> shown.m.toggleText == TURN_ON)
  {
  }

  /**
   * A click posts the other button text, whether or not it could send; two
   * clicks whose posts both run restore the text they started from.
   */
  lemma ClickFlipsButton(m: Machine, env: Env)
    requires m.status != Connected
    requires m.toggleText == TURN_ON || m.toggleText == TURN_OFF
    ensures var once := Link.Click(m, env);
            && once.Ok? && once.effects == []
            && var shown := Link.Dispatch(once.m, |m.pending|, env).m;
               && shown.toggleText != m.toggleText
               && Link.Flipped(shown.toggleText) == m.toggleText
               && shown.pending == m.pending
  {
  }

  /**
   * A second link-error callback in the same disconnected window faults on
   * the null socket instead of scheduling a second retry.
   */
  lemma SecondLinkErrorFaults(m: Machine)
    requires m.socket.Some?
    ensures var first := Link.OnLinkError(m);
            && first.Ok?
            && Link.OnLinkError(first.m) == Crash(NullSocket, first.m, [])
  {
  }

  /**
   * A whole session: the app starts with the adapter on and the lamp bonded,
   * the socket connects, the settled query sends "S", the lamp answers 'y',
   * and the button ends up offering "Turn Off".
   */
  lemma SessionScenario(text: string)
    ensures var env := Env(true, Some(Adapter(true, [DEVICE_ADDRESS])), false, false, false, false);
            var started := Link.Create(text, env);
            && started == Ok(Machine(Connecting, true, Some(Socket(DEVICE_ADDRESS)), text,
                                     [Pending(PollStatus, STATUS_CHECK_INTERVAL)]),
                             [Open(DEVICE_ADDRESS)])
            && Link.RunAll(started.m, [Input(SerialConnect, env), Input(Run(1), env),
                                       Input(SerialRead([121]), env), Input(Run(1), env)])
               == Ok(Machine(Connected, true, Some(Socket(DEVICE_ADDRESS)), TURN_OFF,
                             [Pending(PollStatus, STATUS_CHECK_INTERVAL)]),
                     [Write([83])])
  {
    var env := Env(true, Some(Adapter(true, [DEVICE_ADDRESS])), false, false, false, false);
    var started := Link.Create(text, env);
    assert Codec.Encode("S") == [83];
    var s1 := Link.OnSerialConnect(started.m);
    assert s1.pending == [Pending(PollStatus, STATUS_CHECK_INTERVAL), Pending(SettledQuery, SETTLE_DELAY)];
    assert Link.Without(s1.pending, 1) == [Pending(PollStatus, STATUS_CHECK_INTERVAL)];
    var s2 := s1.(pending := [Pending(PollStatus, STATUS_CHECK_INTERVAL)]);
    assert Link.Apply(s1, Input(Run(1), env)) == Ok(s2, [Write([83])]);
    assert Codec.ReplyOf(121) == Codec.On;
    var s3 := s2.(pending := [Pending(PollStatus, STATUS_CHECK_INTERVAL), Pending(SetLabel(TURN_OFF), 0)]);
    assert Link.Apply(s2, Input(SerialRead([121]), env)) == Ok(s3, []);
    assert Link.Without(s3.pending, 1) == [Pending(PollStatus, STATUS_CHECK_INTERVAL)];
    var s4 := s2.(toggleText := TURN_OFF);
    assert Link.Apply(s3, Input(Run(1), env)) == Ok(s4, []);
    var inputs := [Input(SerialConnect, env), Input(Run(1), env), Input(SerialRead([121]), env), Input(Run(1), env)];
    assert inputs[1..][1..][1..][1..] == [];
    assert Link.RunAll(s3, inputs[1..][1..][1..]) == Ok(s4, []);
    assert Link.RunAll(s2, inputs[1..][1..]) == Ok(s4, []);
    assert Link.RunAll(s1, inputs[1..]) == Ok(s4, [Write([83])]);
  }

  /**
   * The link breaks while Connected: the machine drops to Disconnected with
   * one retry pending; the retry reconnects, and the new connection queues a
   * fresh settled query.
   */
  lemma RecoveryScenario(text: string)
    ensures var env := Env(true, Some(Adapter(true, [DEVICE_ADDRESS])), false, false, false, false);
            var up := Machine(Connected, true, Some(Socket(DEVICE_ADDRESS)), text,
                              [Pending(PollStatus, STATUS_CHECK_INTERVAL)]);
            var broken := Link.Apply(up, Input(SerialIoError, env));
            && broken == Ok(up.(status := Disconnected, socket := None,
                                pending := [Pending(PollStatus, STATUS_CHECK_INTERVAL),
                                            Pending(RetryConnect, CONNECT_AGAIN_INTERVAL)]),
                            [Close])
            && Link.RunAll(broken.m, [Input(Run(1), env), Input(SerialConnect, env)])
               == Ok(up.(pending := [Pending(PollStatus, STATUS_CHECK_INTERVAL),
                                     Pending(SettledQuery, SETTLE_DELAY)]),
                     [Open(DEVICE_ADDRESS)])
  {
    var env := Env(true, Some(Adapter(true, [DEVICE_ADDRESS])), false, false, false, false);
    var up := Machine(Connected, true, Some(Socket(DEVICE_ADDRESS)), text,
                      [Pending(PollStatus, STATUS_CHECK_INTERVAL)]);
    var broken := Link.Apply(up, Input(SerialIoError, env));
    assert Link.Without(broken.m.pending, 1) == [Pending(PollStatus, STATUS_CHECK_INTERVAL)];
    var retried := up.(status := Connecting, pending := [Pending(PollStatus, STATUS_CHECK_INTERVAL)]);
    assert Link.Apply(broken.m, Input(Run(1), env)) == Ok(retried, [Open(DEVICE_ADDRESS)]);
    var inputs := [Input(Run(1), env), Input(SerialConnect, env)];
    assert inputs[1..][1..] == [];
    assert Link.RunAll(retried, inputs[1..]) == Ok(Link.OnSerialConnect(retried), []);
  }
}

=== FILE: types.dfy ===
/**
 * Values shared by the whole model of the lamp controller: the connection
 * status, the pending-action queue of the UI thread's handler, the effects an
 * event has on the outside world, and the environment facts an event reads.
 */
module LampTypes {

  /** A byte as the transport carries it (Java's signed byte, read as 0..255). */
  newtype byte = x: int | 0 <= x < 256

  datatype Option<+T> = None | Some(value: T)

  /** The three connection states of the activity. */
  datatype ConnectionStatus = Disconnected | Connecting | Connected

  /** The one peripheral the app talks to. */
  const DEVICE_ADDRESS: string := "20:16:03:08:32:85"

  /** Delay of the recurring status poll, in milliseconds. */
  const STATUS_CHECK_INTERVAL: nat := 5000

  /** Delay before a failed or refused connect is tried again, in milliseconds. */
  const CONNECT_AGAIN_INTERVAL: nat := 5000

  /** Delay between a successful connect and the first status query, in milliseconds. */
  const SETTLE_DELAY: nat := 1000

  /** The two texts the toggle button shows. */
  const TURN_ON: string := "Turn On"
  const TURN_OFF: string := "Turn Off"

  /** An open serial socket; it only remembers which device it was opened to. */
  datatype Socket = Socket(address: string)

  /**
   * The work items the code posts on its handler:
   * a delayed `connect()`, the self-rescheduling status poll, the one
   * `send("S")` after a successful connect, and a posted toggle-label change.
   */
  datatype Action = RetryConnect | PollStatus | SettledQuery | SetLabel(text: string)

  /** One entry of the handler queue: what runs and after how many milliseconds. */
  datatype Pending = Pending(action: Action, delay: nat)

  /** What an event does to the socket layer. */
  datatype Effect = Open(address: string) | Write(bytes: seq<byte>) | Close

  /**
   * The unchecked exceptions that escape an event out of the activity, possibly
   * into the socket code that called it back; the model ends the run there.
   */
  datatype Fault =
    | NullSocket   // `socket.disconnect()` on a null socket
    | EmptyRead    // `data[0]` on an empty read

  /**
   * The activity's state: connection status, whether the adapter field is set,
   * the socket field, the toggle button's text and the handler queue.
   */
  datatype Machine = Machine(
    status: ConnectionStatus,
    hasAdapter: bool,
    socket: Option<Socket>,
    toggleText: string,
    pending: seq<Pending>)

  /**
   * The result of one event: the next machine and the effects performed, or a
   * fault that escaped, with the machine as it stood when it escaped and the
   * effects performed before it.
   */
  datatype Outcome =
    | Ok(m: Machine, effects: seq<Effect>)
    | Crash(fault: Fault, m: Machine, effects: seq<Effect>)

  /** What the platform's default Bluetooth adapter reports at the moment it is asked. */
  datatype Adapter = Adapter(enabled: bool, bonded: seq<string>)

  /**
   * Environment facts an event may consult: whether the device has the
   * Bluetooth feature, the default adapter (None when the platform has none),
   * whether the request to enable a switched-off adapter throws, whether a
   * platform call between the enabled check and the socket's
   * creation throws (listing the bonded devices, looking up the remote device
   * or its name), and whether opening or writing the socket throws.
   */
  datatype Env = Env(
    bluetoothFeature: bool,
    adapter: Option<Adapter>,
    enableThrows: bool,
    lookupThrows: bool,
    openThrows: bool,
    writeThrows: bool)

  /** The external events that drive the activity. */
  datatype Event =
    | Click                  // the toggle button is pressed
    | Run(index: nat)        // the handler runs its pending entry at `index`
    | SerialConnect          // the socket reports that it connected
    | SerialConnectError     // the socket reports that connecting failed
    | SerialIoError          // the socket reports that the link broke
    | SerialRead(data: seq<byte>)  // the socket delivers bytes
    | Destroy                // the activity is destroyed

  /** An event together with the environment it happens in. */
  datatype Input = Input(event: Event, env: Env)

  /** True when some effect writes bytes. */
  predicate Wrote(effects: seq<Effect>) {
    exists i :: 0 <= i < |effects| && effects[i].Write?
  }

  /** True when some effect opens a socket. */
  predicate Opened(effects: seq<Effect>) {
    exists i :: 0 <= i < |effects| && effects[i].Open?
  }
}
